=== FILE: README.md ===
# Slingshot game core in Dafny

A model of the gameplay core of a small pygame slingshot game ("angry birds
and watermelons"). A player drags a bird out of a slingshot and releases it.
The bird flies under gravity and kills the sheep it touches. Watermelons
knock it back. Each level hands out a pool of 500 birds, one turn at a time.
Clearing all sheep completes the level and pays a bonus. Running out of
birds with sheep left ends the game, and four levels finish it.

The model is functional. Birds, sheep, watermelons and the session are
immutable records over `real` coordinates. Every rule of the game is a pure
function or method from one record to the next: one frame of input (`HandleEvents`),
one frame of the game (`Update`), and the aiming preview (`Preview`).
Drawing, particles, sound and the event loop are not modelled.

| file | module | source |
|---|---|---|
| `kinematics.dfy` | `Kinematics` | the per-frame flight rule shared by `Bird.update` and the preview |
| `constants.dfy` | `Constants` | `src/utils/constants.py`, which is not part of this model: its values become the fields of `Config` |
| `options.dfy` | `Options` | "bird or None" |
| `bird.dfy` | `BirdEntity` | `src/entities/bird.py` |
| `sheep.dfy` | `SheepEntity` | `src/entities/sheep.py` |
| `watermelon.dfy` | `WatermelonEntity` | `src/entities/watermelon.py` |
| `game_state.dfy` | `Game` | `src/game.py`: setup, turn sequencer, `update` |
| `game_frame.dfy` | `FrameRules` | `src/game.py`: what `update` does, stated per concern |
| `game_input.dfy` | `Controls` | `src/game.py`: `handle_events` |
| `game_preview.dfy` | `Trajectory` | `src/game.py`: the points of `draw_trajectory` |
| `game_invariants.dfy` | `GameInvariants` | the invariant of every reachable session, and its consequences |

Modelling choices:

- The constants (`GRAVITY`, `LAUNCH_POWER`, `MAX_PULL_DISTANCE`,
  `SCREEN_WIDTH`, `SCREEN_HEIGHT`, `BIRD_RADIUS`, `SHEEP_RADIUS`) are
  parameters. `Config.Valid()` requires all of them to be positive.
- Each square-root comparison in the source (bird/sheep contact, mouse press
  on the bird) is modelled as a comparison of squares.
  `BirdEntity.HitMatchesDistance` and `Controls.GrabMatchesDistance` prove
  that the squared test agrees with the distance test.
- Only the drag clamp needs an actual square root. The host computes it, and
  it enters the model as `Input.pullLength`. `Controls.Measured` requires
  that value to be the non-negative root.
- One frame's input is the batch of events plus a single mouse position. The
  source reads the mouse state (`pygame.mouse.get_pos()`), not the event,
  and that state is the same for the whole batch.
- `handle_events` fixes `current_bird` when the batch starts. If `N` sets up
  a new level in the middle of a batch, the rest of the batch and the drag
  clamp act on the old bird, which is no longer in the pool. `Batch.attached`
  records this. Once it is false, only `T` still acts on the session: it
  toggles the preview flag. The bird events and `R` act on the detached bird
  and are lost, and `N` finds the new level not complete and does nothing.
- The level layouts are a `seq<Layout>` table given as a parameter. Level
  `k` uses entry `k - 1`. A level with no entry gets no sheep and no
  watermelons, because `setup_level`'s `if/elif` chain has no `else`.

The model keeps four quirks of the code:

- A release launches with the raw offset from the start point to the mouse,
  not the clamped one. The preview uses the clamped bird position, so past
  the pull limit it shows a weaker shot than the one fired
  (`Trajectory.PreviewPullVsShot`).
- The watermelon test does not check whether the bird is launched. It runs
  for the current bird whenever that bird is active.
- `N` on the last level sets `game_over` and leaves `level_complete` true,
  so both flags hold at once. Every further `N` raises the level again,
  which means the level is bounded below by 1 but has no upper bound.
- A bird becomes "inactive" only by leaving the field while launched. The
  field has no upper bound on `y`.

## Model

| member | source | states |
|---|---|---|
| Kinematics.OrbitClosedForm | src/entities/bird.py:64-67 | after n frames the horizontal velocity is unchanged, the vertical velocity has gained n·g, x has moved n·vx, and y has moved n·vy plus n(n+1)/2·g |
| Kinematics.FallFromRestDescends | src/entities/bird.py:65-67 | starting from rest with positive gravity, the height coordinate strictly increases every frame |
| SheepEntity.NewSheep | src/entities/sheep.py:13-19 | a new sheep is alive, at the given point, with the given radius |
| SheepEntity.Hit | src/entities/sheep.py:109-111 | a hit sheep is dead, and its position and radius are unchanged |
| SheepEntity.HitTwice | src/entities/sheep.py:109-111 | hitting a dead sheep again changes nothing, and it stays dead |
| BirdEntity.NewBird | src/entities/bird.py:13-25 | a new bird is at its start point with zero velocity; it is not launched, not dragged, and active |
| BirdEntity.Update | src/entities/bird.py:59-75 | an inactive or unlaunched bird is unchanged; a launched active bird takes one semi-implicit Euler step and stays active iff the new position is within the field widened by 50 on the left, right and bottom; start, radius, `launched` and `dragging` never change, and an inactive bird never becomes active again |
| BirdEntity.InactiveStaysPut | src/entities/bird.py:61-62 | however many frames pass, an inactive bird stays exactly as it is |
| BirdEntity.FlightFollowsOrbit | src/entities/bird.py:59-75 | while a launched bird stays in bounds, after n frames its motion equals the n-frame orbit; it is still active iff its last position is in bounds |
| BirdEntity.Reset | src/entities/bird.py:77-86 | reset returns exactly the bird the constructor builds at the start point |
| BirdEntity.ResetIdempotent | src/entities/bird.py:77-86 | resetting twice is the same as resetting once |
| BirdEntity.Launch | src/entities/bird.py:88-92 | the velocity becomes the power times the launch power and the bird is launched; position, start, dragging and active are unchanged |
| BirdEntity.HitMatchesDistance | src/entities/bird.py:94-100 | the contact test holds iff the bird is active and launched and the Euclidean distance is strictly below r + R + 5; equality is a miss |
| WatermelonEntity.NewMelon | src/entities/watermelon.py:13-17 | a new watermelon is the 60×60 box whose top-left corner is (x, y) |
| WatermelonEntity.Crack | src/entities/watermelon.py:89-97 | cracking changes no geometry |
| WatermelonEntity.OverlapsIffCommonPoint | src/entities/watermelon.py:99-104 | for positive sizes, the four strict inequalities hold iff some point lies strictly inside both the bird's bounding square and the box |
| WatermelonEntity.EdgeContactIsNoOverlap | src/entities/watermelon.py:101-102 | touching exactly on any edge is not a collision |
| WatermelonEntity.OverlapsReadsGeometryOnly | src/entities/watermelon.py:99-104 | the test depends only on the bird's position and radius, not on its flags or velocity, and cracking does not change the answer |
| Game.SetupLevel | src/game.py:223-234 | the pool holds 500 resting, active birds at (200,550) with start (200,550); the turn index is 0; the sheep and watermelons are those of the level's layout; every sheep is alive; score, level and flags are unchanged |
| Game.CurrentBird | src/game.py:817-821 | returns a bird iff the index is below the pool size, and then returns the bird at the index |
| Game.NextBird | src/game.py:823-829 | raises the index by exactly 1 and returns false iff the new index is not below the pool size |
| Game.UpdateAll | src/game.py:970-971 | every bird of the pool takes its own frame |
| Game.SheepPass | src/game.py:987-990 | each living sheep the bird touches dies and dead sheep are skipped; the points gained are exactly 100 per sheep that died |
| Game.MelonPass | src/game.py:993-997 | k overlapping watermelons scale both velocity components by (-0.3)^k, and nothing else about the bird changes |
| Game.Collide | src/game.py:986-997 | each living sheep the bird touches, judged by the bird before any bounce, dies and no other sheep changes; the score rises by 100 per sheep that died; the bird's velocity is scaled by (-0.3)^k for the k watermelons it overlaps; every other bird, the watermelons, the level, the turn index and the flags are unchanged |
| Game.AwardIfCleared | src/game.py:999-1003 | with no sheep alive the level is complete afterwards; the bonus 500 × level is added only when the flag goes from false to true |
| Game.AdvanceTurn | src/game.py:974-983 | the index rises by one; once the pool is spent, the game ends iff some sheep is alive and the level is not complete, and otherwise the bonus is paid if it has not been paid |
| Game.Update | src/game.py:961-1003 | a spent pool freezes the session; a frame never changes the level, the watermelons, the pool size or the number of sheep |
| FrameRules.UpdateScore | src/game.py:977-1003 | in a frame sheep only die; the score rises by 100 per death plus the level bonus, paid only in the frame the level becomes complete; a complete level stays complete, and a level becomes complete exactly when no sheep is alive |
| FrameRules.UpdateTurn | src/game.py:974-975 | the turn moves on by exactly one iff the current bird is launched and its frame took it out of bounds |
| FrameRules.UpdateBirds | src/game.py:969-997 | every other bird takes only its own frame; the current bird also bounces, and the sheep are hit, only while that bird is still active after its frame |
| FrameRules.UpdateGameOver | src/game.py:974-983 | game over is set iff it was already set or the last bird's turn ends with some sheep alive and the level not complete |
| Controls.NextLevel | src/game.py:934-940 | `N` does nothing unless the level is complete; then it raises the level; past level 4 it sets game over and leaves the level complete; otherwise it sets up the new level and clears the flag |
| Controls.ApplyEvent | src/game.py:909-943 | only `N` can move the level, replace the sheep and watermelons, touch the end flags or detach the batch's bird, and it detaches the bird only when it sets up a new level; no event changes the score or the current bird's start point; while the bird stays attached no other bird of the pool changes; `T` only toggles the preview flag; once the bird is detached and the level is not complete, nothing but the preview flag changes; no event clears game over |
| Controls.ApplyEvents | src/game.py:909-943 | over a whole batch the score is unchanged and the level never decreases; if the level stays the same, the sheep, the watermelons and both flags are unchanged too; a batch's bird is detached only if the level rose; while it stays attached no other bird changes; once detached on a level that is not complete, the rest of the batch changes nothing but the preview flag; game over, once set, stays set |
| Controls.NoLevelKeyKeepsBird | src/game.py:909-943 | a batch without `N` keeps the batch's bird attached and the level unchanged |
| Controls.ClampPull | src/game.py:947-954 | the clamped pull is within the limit; a pull already within the limit is unchanged; a longer pull becomes exactly the limit in length and keeps its direction |
| Controls.DragClamp | src/game.py:945-957 | a dragged current bird ends at most the pull limit from its start point; it is exactly under the mouse when the pull is within the limit, and otherwise exactly at the limit on the line from its start towards the mouse; only its position changes, and with no dragged current bird nothing changes |
| Controls.HandleEvents | src/game.py:905-959 | input never changes the score or lowers the level; input that leaves the level alone changes neither the turn index nor the sheep, the watermelons or the flags; input never clears game over |
| Controls.GrabMatchesDistance | src/game.py:916-918 | the squared press test holds iff the Euclidean distance is strictly below the bird's radius |
| Controls.DragStaysWithinPull | src/game.py:945-957 | after any batch in which the frame's bird stays current (including `N` past level 4), a bird still being dragged is at most the pull limit from its start point, and exactly at the mouse when the pull is within the limit |
| Controls.PressGrabs | src/game.py:913-918 | a press starts a drag iff the bird is not launched and the mouse is strictly inside it; the bird is then clamped in the same frame |
| Controls.ReleaseUsesRawPull | src/game.py:920-926 | release launches with the unclamped offset from the start point to the mouse, and leaves the bird where it was |
| Controls.ResetKey | src/game.py:929-931 | `R` rebuilds the current bird at its start point, and pressing it twice is the same as pressing it once |
| Controls.NextLevelKey | src/game.py:934-940 | `N` acts only on a complete level: past level 4 both flags hold; otherwise there is a fresh pool at index 0 with every sheep alive and the flag cleared |
| Trajectory.ProjectPoints | src/game.py:880-892 | between 1 and 50 points; point i is the orbit after i+1 frames; every point but the last is in the field; a list shorter than 50 ends outside the field |
| Trajectory.Preview | src/game.py:873-892 | there are points iff the current bird is being dragged and not launched; then there are between 1 and 50, they follow the orbit from the bird's position with velocity (start − position) × launch power, every point but the last is in the field, and a list shorter than 50 ends outside the field |
| Trajectory.PreviewIsFlight | src/game.py:880-889 | a launched bird with the previewed motion passes through exactly the previewed points, one per frame |
| Trajectory.PreviewPullVsShot | src/game.py:877-878 | within the pull limit the preview's pull equals the fired pull; past the limit it is strictly shorter |
| GameInvariants.NewGame | src/game.py:53-74 | the game starts at level 1 with score 0, index 0, no flags and every sheep of level 1 alive, and it satisfies the invariant |
| GameInvariants.UpdateKeepsInv | src/game.py:961-1003 | a frame of the game preserves the invariant: spent birds below the index, untouched birds above it, unlaunched birds have zero velocity, a bird neither launched nor dragged sits at its start point, the current bird is active, score ≥ 0, a complete level has no living sheep, game over only on a spent pool or past level 4 |
| GameInvariants.EventKeepsInv | src/game.py:913-940 | each event preserves the invariant |
| GameInvariants.EventsKeepInv | src/game.py:909-943 | a whole batch of events preserves the invariant |
| GameInvariants.HandleEventsKeepsInv | src/game.py:905-959 | input, including the drag clamp, preserves the invariant |
| GameInvariants.Frames | src/game.py:1059-1066 | every session reached by frames from one that satisfies the invariant also satisfies it |
| GameInvariants.Run | src/game.py:1059-1066 | every session the game reaches from its start satisfies the invariant |
| GameInvariants.ScoreNeverDrops | src/game.py:977-1003 | the score never decreases from one frame to the next |
| GameInvariants.GameOverIsFinal | src/game.py:905-1003 | once game over is set, no frame clears it, whatever its input |
| GameInvariants.ScoreWithinLevel | src/game.py:978-1003 | within one level, over any number of frames, the score rises by exactly 100 per dead sheep plus the bonus at most once |
| GameInvariants.SpentPoolIgnoresEvents | src/game.py:914-934 | with no current bird and the level not complete, events only toggle the preview |
| GameInvariants.ExhaustedGameIsFrozen | src/game.py:965-967 | once the game has ended by running out of birds, a frame changes nothing except whether the preview is shown |

## Left out

- Everything that draws: the `draw*` methods, `draw_ui`, `draw_signature`, the slingshot, the background, and the overlays of `src/game.py`. It is rendering only.
- Particles: bird trails, sheep hit bursts and watermelon cracks. They are random and cosmetic, with no effect on gameplay.
- Icon, font and sound loading, `play_sound`, and the `M` key (`toggle_sound`). This is file-system and mixer I/O. `M` and other ignored input are the `Other` event.
- Random cosmetic attributes: sheep colours, bows and spots, the bird's colour, and the watermelon's `is_cut`.
- The event loop, `clock.tick`, `QUIT` (it stops the batch where it occurs, skipping the rest of the batch and the drag clamp; one more `update` and `draw` run before the loop exits), `main.py` and `debug_imports.py`. A frame is modelled as `HandleEvents` followed by `Update`.
- The literal coordinates of the four level layouts. They are a table parameter; only its shape matters to the properties.
- Floating-point rounding: coordinates are reals. `math.sqrt` is a host function whose result enters the model as `Input.pullLength`.
- `Trajectory.Preview` computes the points that `draw_trajectory` would draw. It does not model the `show_trajectory` gate in `draw`, which only decides whether the points are drawn.

=== FILE: bird.dfy ===
/**
 * The bird: a circle with a position, a velocity, a fixed start point and
 * three flags.  `dragging` is the aiming phase, `launched` the flight, and
 * `active` drops to false once the bird leaves the field plus a margin.
 * Trail particles are cosmetic and are not modelled.
 */
module BirdEntity {

  import opened Kinematics
  import opened SheepEntity

  /** How far beyond each edge of the field a bird may fly and stay active. */
  const Margin: real := 50.0

  /** Slack added to the two radii in the bird/sheep contact test. */
  const HitSlack: real := 5.0

  datatype Bird = Bird(
    pos: Vec,
    vel: Vec,
    radius: real,
    start: Vec,
    launched: bool,
    dragging: bool,
    active: bool)

  /** A new bird rests at its start point: no velocity, not launched, not
      being dragged, active. */
  function NewBird(x: real, y: real, radius: real): (b: Bird)
    ensures b.pos == Vec(x, y) && b.start == Vec(x, y)
    ensures b.vel == Zero && b.radius == radius
    ensures !b.launched && !b.dragging && b.active
  {
    Bird(Vec(x, y), Zero, radius, Vec(x, y), false, false, true)
  }

  /** Inside the field widened by `Margin` on the left, right and bottom;
      there is no bound above the field. */
  predicate InBounds(p: Vec, width: real, height: real) {
    -Margin <= p.x <= width + Margin && p.y <= height + Margin
  }

  /** One frame.  An inactive or unlaunched bird does not move; a launched
      one takes one flight step and goes inactive when it lands outside
      the widened field. */
  function Update(b: Bird, g: real, width: real, height: real): (r: Bird)
    ensures !b.active || !b.launched ==> r == b
    ensures b.active && b.launched ==>
      && Motion(r.pos, r.vel) == Step(Motion(b.pos, b.vel), g)
      && (r.active <==> InBounds(r.pos, width, height))
    ensures r.start == b.start && r.radius == b.radius
    ensures r.launched == b.launched && r.dragging == b.dragging
    ensures r.active ==> b.active
  {
    if !b.active || !b.launched then b
    else
      var m := Step(Motion(b.pos, b.vel), g);
      var out := m.pos.x < -Margin || m.pos.x > width + Margin || m.pos.y > height + Margin;
      b.(pos := m.pos, vel := m.vel, active := !out)
  }

  /** `n` frames of `Update`. */
  function UpdateN(b: Bird, g: real, width: real, height: real, n: nat): Bird
    decreases n
  {
    if n == 0 then b else Update(UpdateN(b, g, width, height, n - 1), g, width, height)
  }

  /** An inactive bird stays exactly as it is, however many frames pass:
      only `Reset` revives it. */
  lemma {:induction false} InactiveStaysPut(b: Bird, g: real, width: real, height: real, n: nat)
    requires !b.active
    ensures UpdateN(b, g, width, height, n) == b
  {
    if n > 0 {
      InactiveStaysPut(b, g, width, height, n - 1);
    }
  }

  /** While a launched bird stays inside the widened field it follows the
      free-flight orbit frame by frame, and its start point never moves. */
  lemma {:induction false} FlightFollowsOrbit(b: Bird, g: real, width: real, height: real, n: nat)
    requires b.active && b.launched
    requires forall k :: 1 <= k < n ==> InBounds(Orbit(Motion(b.pos, b.vel), g, k).pos, width, height)
    ensures var r := UpdateN(b, g, width, height, n);
      && Motion(r.pos, r.vel) == Orbit(Motion(b.pos, b.vel), g, n)
      && r.start == b.start && r.launched
      && (r.active <==> n == 0 || InBounds(r.pos, width, height))
  {
    if n > 0 {
      FlightFollowsOrbit(b, g, width, height, n - 1);
      var prev := UpdateN(b, g, width, height, n - 1);
      if n - 1 >= 1 {
        assert InBounds(Orbit(Motion(b.pos, b.vel), g, n - 1).pos, width, height);
      }
      assert prev.active;
    }
  }

  /** Reset puts the bird back exactly as it was built at its start point. */
  function Reset(b: Bird): (r: Bird)
    ensures r == NewBird(b.start.x, b.start.y, b.radius)
  {
    b.(pos := b.start, vel := Zero, launched := false, dragging := false, active := true)
  }

  /** Resetting twice is resetting once. */
  lemma ResetIdempotent(b: Bird)
    ensures Reset(Reset(b)) == Reset(b)
  {
  }

  /** Launching sets the velocity to the pull scaled by the launch power and
      marks the bird launched; position, dragging, activity and start stay. */
  function Launch(b: Bird, power: Vec, launchPower: real): (r: Bird)
    ensures r.vel == power.Scale(launchPower) && r.launched
    ensures r.pos == b.pos && r.start == b.start && r.radius == b.radius
    ensures r.dragging == b.dragging && r.active == b.active
  {
    b.(vel := Vec(power.x * launchPower, power.y * launchPower), launched := true)
  }

  /** The bird/sheep contact test: only an active launched bird can hit,
      and then only when the centres are strictly closer than the two radii
      plus the slack.  Stated on squares; `HitMatchesDistance` ties it to
      the Euclidean distance. */
  predicate HitsSheep(b: Bird, s: Sheep) {
    && b.active
    && b.launched
    && SqDist(b.pos, s.pos) < (b.radius + s.radius + HitSlack) * (b.radius + s.radius + HitSlack)
  }

  /** For non-negative reals, comparing squares is comparing the values. */
  lemma SquareLess(d: real, t: real)
    requires d >= 0.0 && t >= 0.0
    ensures d < t <==> d * d < t * t
  {
    if d < t {
      var e := t - d;
      assert t * t == d * d + e * (d + t);
      assert e * (d + t) > 0.0;
    } else {
      var e := d - t;
      assert d * d == t * t + e * (d + t);
      assert e * (d + t) >= 0.0;
    }
  }

  /** With `dist` the Euclidean distance between the centres, the contact
      test holds iff the bird is active and launched and `dist` is strictly
      below the radii plus slack; touching at exactly that distance is a miss. */
  lemma HitMatchesDistance(b: Bird, s: Sheep, dist: real)
    requires b.radius >= 0.0 && s.radius >= 0.0
    requires dist >= 0.0 && dist * dist == SqDist(b.pos, s.pos)
    ensures HitsSheep(b, s) <==> b.active && b.launched && dist < b.radius + s.radius + HitSlack
    ensures dist == b.radius + s.radius + HitSlack ==> !HitsSheep(b, s)
  {
    SquareLess(dist, b.radius + s.radius + HitSlack);
  }

}

=== FILE: constants.dfy ===
/**
 * The tuning constants the game reads from its constants module.  Their
 * literal values are not part of this model; every operation takes them
 * as a record, and the game only ever uses positive values.
 */
module Constants {

  datatype Config = Config(
    gravity: real,      // added to the vertical velocity every frame
    launchPower: real,  // scales a pull offset into a launch velocity
    maxPull: real,      // the longest pull the slingshot allows
    width: real,        // playfield width
    height: real,       // playfield height (y grows downwards)
    birdRadius: real,
    sheepRadius: real)
  {
    predicate Valid() {
      && gravity > 0.0
      && launchPower > 0.0
      && maxPull > 0.0
      && width > 0.0
      && height > 0.0
      && birdRadius > 0.0
      && sheepRadius > 0.0
    }
  }

}

=== FILE: game_frame.dfy ===
/**
 * What one frame of the game does to the session, stated against the
 * definition of `Game.Update`: which birds move, when the turn passes,
 * how the score moves, when the level completes and when the game ends.
 */
module FrameRules {

  import opened Constants
  import BirdEntity
  import opened Game

  /** Sheep only die in a frame, and the score moves by `HitScore` for each
      death plus the level bonus, which is paid only on the frame the level
      becomes complete; a complete level stays complete. */
  lemma UpdateScore(s: Session, cfg: Config)
    ensures var r := Update(s, cfg);
      && AliveCount(r.sheep) <= AliveCount(s.sheep)
      && r.score == s.score + HitScore * (AliveCount(s.sheep) - AliveCount(r.sheep))
                    + (if !s.levelComplete && r.levelComplete then LevelBonus * s.level else 0)
      && (s.levelComplete ==> r.levelComplete)
      && (r.levelComplete && !s.levelComplete ==> AliveCount(r.sheep) == 0)
      && (s.index < |s.birds| && AliveCount(r.sheep) == 0 ==> r.levelComplete)
  {
  }

  /** The turn passes on by exactly one bird when, and only when, the
      current bird was launched and its frame took it out of the field. */
  lemma UpdateTurn(s: Session, cfg: Config)
    ensures Update(s, cfg).index == if TurnEnds(s, cfg) then s.index + 1 else s.index
  {
  }

  /** Every bird takes its own frame; afterwards only the current bird,
      and only while it is still active, meets the watermelons, and only it
      meets the sheep. */
  lemma UpdateBirds(s: Session, cfg: Config)
    requires s.index < |s.birds|
    ensures var r := Update(s, cfg); var cur := Stepped(s, cfg);
      && (forall j | 0 <= j < |s.birds| && j != s.index ::
            r.birds[j] == BirdEntity.Update(s.birds[j], cfg.gravity, cfg.width, cfg.height))
      && r.birds[s.index] == (if cur.active then MelonPass(cur, s.melons) else cur)
      && r.sheep == (if cur.active then SheepPass(cur, s.sheep).0 else s.sheep)
  {
  }

  /** The game ends by exhaustion only when the last bird's turn ends with
      some sheep still alive and the level not complete; nothing in a frame
      clears the flag. */
  lemma UpdateGameOver(s: Session, cfg: Config)
    ensures Update(s, cfg).gameOver <==>
      s.gameOver
      || (TurnEnds(s, cfg) && s.index + 1 == |s.birds| && AliveCount(s.sheep) > 0 && !s.levelComplete)
  {
  }

}

=== FILE: game_input.dfy ===
/**
 * The input side of a frame: the batch of events polled in one frame and
 * the mouse position, which is read from the mouse state and so is the same
 * for the whole batch.  The bird the batch acts on is fixed when the batch
 * starts; once `N` has set a new level up, that bird is no longer in the
 * pool and whatever the rest of the batch does to it is lost.
 */
module Controls {

  import opened Kinematics
  import opened Constants
  import BirdEntity
  import opened Game

  /** Mouse button down and up, the `R`, `T` and `N` keys, and everything
      else (which the game core ignores). */
  datatype Event = MouseDown | MouseUp | KeyR | KeyT | KeyN | Other

  /** One frame's input.  `pullLength` is the Euclidean length of the pull
      from the current bird's start point to the mouse, as the host's square
      root computes it. */
  datatype Input = Input(events: seq<Event>, mouse: Vec, pullLength: real)

  /** The session while a batch is processed, and whether the bird the batch
      started with is still the pool's current bird. */
  datatype Batch = Batch(s: Session, attached: bool)

  /** Replaces the current bird. */
  function SetCurrent(s: Session, b: Bird): (r: Session)
    requires s.index < |s.birds|
    ensures r.birds == s.birds[s.index := b]
    ensures r == s.(birds := r.birds)
  {
    s.(birds := s.birds[s.index := b])
  }

  /** The batch's bird is still there to act on. */
  predicate Acting(st: Batch) {
    st.attached && st.s.index < |st.s.birds|
  }

  /** The mouse lies strictly within the bird's circle. */
  predicate Grabs(b: Bird, mouse: Vec) {
    SqDist(mouse, b.pos) < b.radius * b.radius
  }

  /** `N`: only when the level is complete.  It raises the level; past the
      last level it ends the game and leaves the level complete, otherwise
      it sets the new level up and clears the flag. */
  function NextLevel(st: Batch, cfg: Config, levels: seq<Layout>): (r: Batch)
    ensures !st.s.levelComplete ==> r == st
    ensures st.s.levelComplete ==> r.s.level == st.s.level + 1
    ensures st.s.levelComplete && st.s.level + 1 > LastLevel ==>
      r == Batch(st.s.(level := st.s.level + 1, gameOver := true), st.attached)
    ensures st.s.levelComplete && st.s.level + 1 <= LastLevel ==>
      && r.s == SetupLevel(st.s.(level := st.s.level + 1), cfg, levels).(levelComplete := false)
      && !r.attached
  {
    if !st.s.levelComplete then st
    else
      var up := st.s.level + 1;
      if up > LastLevel then Batch(st.s.(level := up, gameOver := true), st.attached)
      else Batch(SetupLevel(st.s.(level := up), cfg, levels).(levelComplete := false), false)
  }

  /** One event of the batch.  Only `N` can detach the batch's bird, move
      the level, replace the sheep and watermelons or touch the end flags. */
  function ApplyEvent(st: Batch, e: Event, mouse: Vec, cfg: Config, levels: seq<Layout>): (r: Batch)
    ensures r.attached ==> st.attached && r.s.index == st.s.index && |r.s.birds| == |st.s.birds|
    ensures r.attached && st.s.index < |st.s.birds| ==> r.s.birds[st.s.index].start == st.s.birds[st.s.index].start
    ensures r.s.score == st.s.score
    ensures st.s.gameOver ==> r.s.gameOver
    ensures r.s.level >= st.s.level
    ensures r.s.level == st.s.level ==>
      && r.attached == st.attached
      && r.s.sheep == st.s.sheep && r.s.melons == st.s.melons
      && r.s.levelComplete == st.s.levelComplete && r.s.gameOver == st.s.gameOver
    ensures e != KeyN ==> r.s.level == st.s.level && r.attached == st.attached
    ensures st.attached && !r.attached ==> e == KeyN && st.s.level < r.s.level <= LastLevel
    ensures r.attached ==>
      forall j | 0 <= j < |st.s.birds| && j != st.s.index :: r.s.birds[j] == st.s.birds[j]
    ensures e == KeyT ==> r == st.(s := st.s.(showTrajectory := !st.s.showTrajectory))
    ensures !st.attached && !st.s.levelComplete ==>
      !r.attached && r.s == st.s.(showTrajectory := r.s.showTrajectory)
  {
    match e
    case MouseDown =>
      if Acting(st) then
        var b := st.s.birds[st.s.index];
        if !b.launched && !b.dragging && Grabs(b, mouse)
        then st.(s := SetCurrent(st.s, b.(dragging := true)))
        else st
      else st
    case MouseUp =>
      if Acting(st) && st.s.birds[st.s.index].dragging then
        var b := st.s.birds[st.s.index].(dragging := false);
        st.(s := SetCurrent(st.s, BirdEntity.Launch(b, b.start.Minus(mouse), cfg.launchPower)))
      else st
    case KeyR =>
      if Acting(st) then st.(s := SetCurrent(st.s, BirdEntity.Reset(st.s.birds[st.s.index]))) else st
    case KeyT =>
      st.(s := st.s.(showTrajectory := !st.s.showTrajectory))
    case KeyN =>
      NextLevel(st, cfg, levels)
    case Other =>
      st
  }

  /** The events of a batch in order.  While the batch's bird stays
      attached the turn index does not move and the current bird keeps its
      start point; score never moves; the level never goes down, and a
      batch that leaves the level alone changes neither the sheep, the
      watermelons nor the two end flags. */
  function ApplyEvents(st: Batch, events: seq<Event>, mouse: Vec, cfg: Config, levels: seq<Layout>): (r: Batch)
    ensures r.attached ==> st.attached && r.s.index == st.s.index && |r.s.birds| == |st.s.birds|
    ensures r.attached && st.s.index < |st.s.birds| ==> r.s.birds[st.s.index].start == st.s.birds[st.s.index].start
    ensures r.s.score == st.s.score
    ensures st.s.gameOver ==> r.s.gameOver
    ensures r.s.level >= st.s.level
    ensures r.s.level == st.s.level ==>
      && r.attached == st.attached
      && r.s.sheep == st.s.sheep && r.s.melons == st.s.melons
      && r.s.levelComplete == st.s.levelComplete && r.s.gameOver == st.s.gameOver
    ensures st.attached && !r.attached ==> st.s.level < r.s.level
    ensures r.attached ==>
      forall j | 0 <= j < |st.s.birds| && j != st.s.index :: r.s.birds[j] == st.s.birds[j]
    ensures !st.attached && !st.s.levelComplete ==>
      !r.attached && r.s == st.s.(showTrajectory := r.s.showTrajectory)
    decreases |events|
  {
    if |events| == 0 then st
    else ApplyEvents(ApplyEvent(st, events[0], mouse, cfg, levels), events[1..], mouse, cfg, levels)
  }

  /** A batch with no `N` key keeps its bird: it neither detaches the
      frame's bird nor changes the level. */
  lemma {:induction false} NoLevelKeyKeepsBird(st: Batch, events: seq<Event>, mouse: Vec, cfg: Config, levels: seq<Layout>)
    requires forall k | 0 <= k < |events| :: events[k] != KeyN
    ensures var r := ApplyEvents(st, events, mouse, cfg, levels);
      r.attached == st.attached && r.s.level == st.s.level
    decreases |events|
  {
    if |events| > 0 {
      NoLevelKeyKeepsBird(ApplyEvent(st, events[0], mouse, cfg, levels), events[1..], mouse, cfg, levels);
    }
  }

  /** The measured pull length is the true length of the current bird's pull. */
  predicate Measured(s: Session, inp: Input) {
    && inp.pullLength >= 0.0
    && (s.index < |s.birds| ==>
          inp.pullLength * inp.pullLength == s.birds[s.index].start.Minus(inp.mouse).SqLen())
  }

  /** The slingshot's pull limit.  A pull of length `len` within the limit
      is kept as it is; a longer one is shortened to exactly the limit along
      the same direction.  Either way the result is within the limit. */
  function ClampPull(d: Vec, len: real, maxPull: real): (r: Vec)
    requires maxPull > 0.0
    requires len >= 0.0 && len * len == d.SqLen()
    ensures r.SqLen() <= maxPull * maxPull
    ensures len <= maxPull ==> r == d
    ensures len > maxPull ==>
      && r.SqLen() == maxPull * maxPull
      && r.x * d.y == r.y * d.x
      && r.x * d.x + r.y * d.y > 0.0
  {
    if len > maxPull then
      var k := maxPull / len;
      assert k * len == maxPull;
      var r := d.Scale(k);
      assert r.SqLen() == k * k * d.SqLen();
      assert k * k * (len * len) == (k * len) * (k * len);
      assert r.x * d.x + r.y * d.y == k * d.SqLen();
      assert k > 0.0 && d.SqLen() > 0.0;
      r
    else
      assert maxPull * maxPull - len * len == (maxPull - len) * (maxPull + len);
      d
  }

  /** The end of the batch: a bird being dragged is moved so that its pull
      is the clamped one.  It ends within the pull limit of its start point,
      exactly under the mouse when the pull is within the limit, exactly at
      the limit (on the line from its start towards the mouse) otherwise;
      nothing but its position changes. */
  function DragClamp(s: Session, cfg: Config, inp: Input): (r: Session)
    requires cfg.maxPull > 0.0
    requires Measured(s, inp)
    ensures |r.birds| == |s.birds|
    ensures s.index < |s.birds| && s.birds[s.index].dragging ==>
      var b := s.birds[s.index];
      var p := r.birds[s.index].pos;
      var pull := b.start.Minus(inp.mouse);
      && r == s.(birds := s.birds[s.index := b.(pos := p)])
      && SqDist(p, b.start) <= cfg.maxPull * cfg.maxPull
      && (inp.pullLength <= cfg.maxPull ==> p == inp.mouse)
      && (inp.pullLength > cfg.maxPull ==>
            && SqDist(p, b.start) == cfg.maxPull * cfg.maxPull
            && b.start.Minus(p).x * pull.y == b.start.Minus(p).y * pull.x
            && b.start.Minus(p).x * pull.x + b.start.Minus(p).y * pull.y > 0.0)
    ensures !(s.index < |s.birds| && s.birds[s.index].dragging) ==> r == s
  {
    if s.index < |s.birds| && s.birds[s.index].dragging then
      var b := s.birds[s.index];
      var d := ClampPull(b.start.Minus(inp.mouse), inp.pullLength, cfg.maxPull);
      assert b.start.Minus(b.start.Minus(d)) == d;
      assert SqDist(b.start.Minus(d), b.start) == d.SqLen();
      SetCurrent(s, b.(pos := b.start.Minus(d)))
    else s
  }

  /** The input half of a frame: the batch, then the drag clamp on the
      batch's bird if it is still in the pool. */
  function HandleEvents(s: Session, cfg: Config, levels: seq<Layout>, inp: Input): (r: Session)
    requires cfg.Valid() && Measured(s, inp)
    ensures r.score == s.score
    ensures s.gameOver ==> r.gameOver
    ensures r.level >= s.level
    ensures r.level == s.level ==>
      && r.index == s.index && |r.birds| == |s.birds|
      && r.sheep == s.sheep && r.melons == s.melons
      && r.levelComplete == s.levelComplete && r.gameOver == s.gameOver
  {
    var st := ApplyEvents(Batch(s, true), inp.events, inp.mouse, cfg, levels);
    if st.attached then DragClamp(st.s, cfg, inp) else st.s
  }

  /** With `dist` the Euclidean distance from the mouse to the bird's
      centre, a press grabs the bird iff `dist` is strictly below its radius. */
  lemma GrabMatchesDistance(b: Bird, mouse: Vec, dist: real)
    requires b.radius >= 0.0
    requires dist >= 0.0 && dist * dist == SqDist(mouse, b.pos)
    ensures Grabs(b, mouse) <==> dist < b.radius
  {
    BirdEntity.SquareLess(dist, b.radius);
  }

  /** After any batch in which the frame's bird stays the current one
      (no new level was set up), a bird still being dragged sits at most
      the pull limit away from its start point, and exactly under the mouse
      when the pull is within the limit.  This includes the batch where
      `N` runs past the last level: the bird is not replaced there. */
  lemma DragStaysWithinPull(s: Session, cfg: Config, levels: seq<Layout>, inp: Input)
    requires cfg.Valid() && Measured(s, inp)
    requires s.index < |s.birds|
    ensures var r := HandleEvents(s, cfg, levels, inp);
      ApplyEvents(Batch(s, true), inp.events, inp.mouse, cfg, levels).attached && r.birds[s.index].dragging ==>
        && r.birds[s.index].start == s.birds[s.index].start
        && SqDist(r.birds[s.index].pos, r.birds[s.index].start) <= cfg.maxPull * cfg.maxPull
        && (inp.pullLength <= cfg.maxPull ==> r.birds[s.index].pos == inp.mouse)
  {
  }

  /** A press grabs the current bird only when it is resting (not launched,
      not already dragged) and the mouse is strictly inside it; once grabbed
      it is placed by the drag clamp at the same frame. */
  lemma PressGrabs(s: Session, cfg: Config, levels: seq<Layout>, mouse: Vec, len: real)
    requires cfg.Valid() && Measured(s, Input([MouseDown], mouse, len))
    requires s.index < |s.birds|
    ensures var b := s.birds[s.index];
      var r := HandleEvents(s, cfg, levels, Input([MouseDown], mouse, len));
      && (!b.dragging ==> (r.birds[s.index].dragging <==> !b.launched && Grabs(b, mouse)))
      && (!b.dragging && !b.launched && Grabs(b, mouse) ==>
            r.birds[s.index] == b.(dragging := true, pos := b.start.Minus(ClampPull(b.start.Minus(mouse), len, cfg.maxPull))))
  {
  }

  /** Releasing a dragged bird launches it with the raw offset from the
      mouse to its start point, however far that pull went past the limit;
      the bird stays where the clamp last put it. */
  lemma ReleaseUsesRawPull(s: Session, cfg: Config, levels: seq<Layout>, mouse: Vec, len: real)
    requires cfg.Valid() && Measured(s, Input([MouseUp], mouse, len))
    requires s.index < |s.birds| && s.birds[s.index].dragging
    ensures var b := s.birds[s.index];
      var r := HandleEvents(s, cfg, levels, Input([MouseUp], mouse, len)).birds[s.index];
      && r.vel == b.start.Minus(mouse).Scale(cfg.launchPower)
      && r.launched && !r.dragging
      && r.pos == b.pos && r.active == b.active && r.start == b.start
  {
  }

  /** `R` puts the current bird back as it was built, and pressing it twice
      in one batch is the same as pressing it once. */
  lemma ResetKey(s: Session, cfg: Config, levels: seq<Layout>, mouse: Vec, len: real)
    requires cfg.Valid()
    requires Measured(s, Input([KeyR], mouse, len))
    requires s.index < |s.birds|
    ensures var b := s.birds[s.index];
      HandleEvents(s, cfg, levels, Input([KeyR], mouse, len)).birds[s.index]
        == BirdEntity.NewBird(b.start.x, b.start.y, b.radius)
    ensures HandleEvents(s, cfg, levels, Input([KeyR, KeyR], mouse, len))
         == HandleEvents(s, cfg, levels, Input([KeyR], mouse, len))
  {
  }

  /** `N` does nothing unless the level is complete.  Then it raises the
      level; past the last level it ends the game and the level stays
      complete, otherwise the next level is set up from scratch with the
      flag cleared, a full pool and every sheep alive. */
  lemma NextLevelKey(s: Session, cfg: Config, levels: seq<Layout>, mouse: Vec, len: real)
    requires cfg.Valid()
    requires Measured(s, Input([KeyN], mouse, len))
    ensures var r := HandleEvents(s, cfg, levels, Input([KeyN], mouse, len));
      && (!s.levelComplete ==>
            r.level == s.level && !r.levelComplete && r.gameOver == s.gameOver && r.sheep == s.sheep)
      && (s.levelComplete ==> r.level == s.level + 1)
      && (s.levelComplete && s.level + 1 > LastLevel ==> r.gameOver && r.levelComplete)
      && (s.levelComplete && s.level + 1 <= LastLevel ==>
            && !r.levelComplete && r.gameOver == s.gameOver && r.index == 0 && |r.birds| == PoolSize
            && r.birds[0] == FreshBird(cfg)
            && AliveCount(r.sheep) == |r.sheep| && r.score == s.score)
  {
  }

}

=== FILE: game_invariants.dfy ===
/**
 * The invariant every reachable session keeps, and what it buys: the pool
 * is spent strictly in order, the score never drops, within a level the
 * score is exactly 100 per dead sheep plus at most one bonus, and a game
 * that ran out of birds is frozen.
 */
module GameInvariants {

  import opened Kinematics
  import opened Constants
  import opened Game
  import opened FrameRules
  import opened Controls

  /** Birds below the turn index are spent (launched and out of the field),
      birds above it are untouched, every bird starts at the slingshot, a
      bird that is not launched has no velocity, and a bird that is neither
      launched nor being dragged sits at its start point.  The current bird
      is still active: its turn passes in the frame it leaves the field. */
  ghost predicate PoolInv(s: Session, cfg: Config) {
    && |s.birds| == PoolSize
    && s.index <= |s.birds|
    && (forall i | 0 <= i < |s.birds| :: s.birds[i].start == Slingshot && s.birds[i].radius == cfg.birdRadius)
    && (forall i | 0 <= i < |s.birds| :: !s.birds[i].launched ==> s.birds[i].vel == Zero)
    && (forall i | 0 <= i < |s.birds| ::
          !s.birds[i].launched && !s.birds[i].dragging ==> s.birds[i].pos == s.birds[i].start)
    && (forall i | 0 <= i < s.index :: s.birds[i].launched && !s.birds[i].active)
    && (s.index < |s.birds| ==> s.birds[s.index].active)
    && (forall i | s.index < i < |s.birds| :: s.birds[i] == FreshBird(cfg))
  }

  ghost predicate Inv(s: Session, cfg: Config) {
    && PoolInv(s, cfg)
    && s.level >= 1
    && s.score >= 0
    && (s.levelComplete ==> AliveCount(s.sheep) == 0)
    && (s.level > LastLevel ==> s.levelComplete && s.gameOver)
    && (s.gameOver ==> (s.index == |s.birds| && !s.levelComplete) || s.level > LastLevel)
  }

  /** The game as it starts: level 1 set up, no score, no flags. */
  function NewGame(cfg: Config, levels: seq<Layout>): (s: Session)
    ensures Inv(s, cfg)
    ensures s.level == 1 && s.score == 0 && s.index == 0
    ensures !s.levelComplete && !s.gameOver
    ensures AliveCount(s.sheep) == |s.sheep| == |LayoutFor(levels, 1).sheep|
  {
    var s := SetupLevel(Session([], 0, [], [], 0, 1, false, false, false), cfg, levels);
    SetupIsFresh(s, cfg);
    s
  }

  lemma SetupIsFresh(s: Session, cfg: Config)
    requires |s.birds| == PoolSize && s.index == 0
    requires forall i | 0 <= i < |s.birds| ::
      s.birds[i].pos == Slingshot && s.birds[i].start == Slingshot && s.birds[i].vel == Zero
      && !s.birds[i].launched && !s.birds[i].dragging && s.birds[i].active
      && s.birds[i].radius == cfg.birdRadius
    ensures PoolInv(s, cfg)
  {
  }

  /** The pull length measured from the slingshot, where every bird starts. */
  predicate MeasuredFromSlingshot(inp: Input) {
    inp.pullLength >= 0.0 && inp.pullLength * inp.pullLength == Slingshot.Minus(inp.mouse).SqLen()
  }

  lemma MeasuredHere(s: Session, cfg: Config, inp: Input)
    requires Inv(s, cfg) && MeasuredFromSlingshot(inp)
    ensures Measured(s, inp)
  {
  }

  /** A frame of the game loop: the input, then the update. */
  function Frame(s: Session, cfg: Config, levels: seq<Layout>, inp: Input): Session
    requires cfg.Valid() && Measured(s, inp)
  {
    Update(HandleEvents(s, cfg, levels, inp), cfg)
  }

  lemma UpdateKeepsInv(s: Session, cfg: Config)
    requires Inv(s, cfg)
    ensures Inv(Update(s, cfg), cfg)
  {
    var r := Update(s, cfg);
    UpdateScore(s, cfg);
    UpdateTurn(s, cfg);
    UpdateGameOver(s, cfg);
    if s.index < |s.birds| {
      UpdateBirds(s, cfg);
      var cur := Stepped(s, cfg);
      forall i | 0 <= i < |r.birds|
        ensures r.birds[i].start == Slingshot && r.birds[i].radius == cfg.birdRadius
      {
        if i == s.index {
          assert cur.start == Slingshot;
        }
      }
      forall i | 0 <= i < r.index
        ensures r.birds[i].launched && !r.birds[i].active
      {
        if i == s.index {
          assert TurnEnds(s, cfg);
        }
      }
      forall i | r.index < i < |r.birds|
        ensures r.birds[i] == FreshBird(cfg)
      {
        assert s.index < i;
      }
    }
  }

  lemma EventKeepsInv(st: Batch, e: Event, inp: Input, cfg: Config, levels: seq<Layout>)
    requires Inv(st.s, cfg)
    ensures Inv(ApplyEvent(st, e, inp.mouse, cfg, levels).s, cfg)
  {
  }

  lemma {:induction false} EventsKeepInv(st: Batch, events: seq<Event>, inp: Input, cfg: Config, levels: seq<Layout>)
    requires Inv(st.s, cfg)
    ensures Inv(ApplyEvents(st, events, inp.mouse, cfg, levels).s, cfg)
    decreases |events|
  {
    if |events| > 0 {
      EventKeepsInv(st, events[0], inp, cfg, levels);
      EventsKeepInv(ApplyEvent(st, events[0], inp.mouse, cfg, levels), events[1..], inp, cfg, levels);
    }
  }

  lemma HandleEventsKeepsInv(s: Session, cfg: Config, levels: seq<Layout>, inp: Input)
    requires cfg.Valid() && Measured(s, inp) && Inv(s, cfg)
    ensures Inv(HandleEvents(s, cfg, levels, inp), cfg)
  {
    var st := ApplyEvents(Batch(s, true), inp.events, inp.mouse, cfg, levels);
    EventsKeepInv(Batch(s, true), inp.events, inp, cfg, levels);
  }

  /** The session after a sequence of frames from `s`, each fed its input. */
  function Frames(s: Session, cfg: Config, levels: seq<Layout>, inputs: seq<Input>): (r: Session)
    requires cfg.Valid() && Inv(s, cfg)
    requires forall k | 0 <= k < |inputs| :: MeasuredFromSlingshot(inputs[k])
    ensures Inv(r, cfg)
    decreases |inputs|
  {
    if |inputs| == 0 then s
    else
      var prev := Frames(s, cfg, levels, inputs[..|inputs| - 1]);
      var inp := inputs[|inputs| - 1];
      MeasuredHere(prev, cfg, inp);
      HandleEventsKeepsInv(prev, cfg, levels, inp);
      UpdateKeepsInv(HandleEvents(prev, cfg, levels, inp), cfg);
      Frame(prev, cfg, levels, inp)
  }

  /** Every session the game can reach from its start keeps the invariant. */
  function Run(cfg: Config, levels: seq<Layout>, inputs: seq<Input>): (s: Session)
    requires cfg.Valid()
    requires forall k | 0 <= k < |inputs| :: MeasuredFromSlingshot(inputs[k])
    ensures Inv(s, cfg)
  {
    Frames(NewGame(cfg, levels), cfg, levels, inputs)
  }

  /** The score never drops from one frame to the next. */
  lemma ScoreNeverDrops(s: Session, cfg: Config, levels: seq<Layout>, inp: Input)
    requires cfg.Valid() && Inv(s, cfg) && MeasuredFromSlingshot(inp)
    ensures Frame(s, cfg, levels, inp).score >= s.score
  {
  }

  /** Game over is final: no frame, whatever its input, clears it. */
  lemma GameOverIsFinal(s: Session, cfg: Config, levels: seq<Layout>, inp: Input)
    requires cfg.Valid() && Inv(s, cfg) && MeasuredFromSlingshot(inp)
    ensures s.gameOver ==> Frame(s, cfg, levels, inp).gameOver
  {
    MeasuredHere(s, cfg, inp);
    UpdateGameOver(HandleEvents(s, cfg, levels, inp), cfg);
  }

  /** Within one level, however many frames pass, the score grows by
      exactly `HitScore` per sheep that died plus the level bonus, which is
      paid at most once: only if the level went from open to complete. */
  lemma {:induction false} ScoreWithinLevel(s: Session, cfg: Config, levels: seq<Layout>, inputs: seq<Input>)
    requires cfg.Valid() && Inv(s, cfg)
    requires forall k | 0 <= k < |inputs| :: MeasuredFromSlingshot(inputs[k])
    ensures var r := Frames(s, cfg, levels, inputs);
      && r.level >= s.level
      && (r.level == s.level ==>
            && AliveCount(r.sheep) <= AliveCount(s.sheep)
            && (s.levelComplete ==> r.levelComplete)
            && r.score == s.score + HitScore * (AliveCount(s.sheep) - AliveCount(r.sheep))
                          + (if !s.levelComplete && r.levelComplete then LevelBonus * s.level else 0))
    decreases |inputs|
  {
    if |inputs| > 0 {
      var init := inputs[..|inputs| - 1];
      assert forall k | 0 <= k < |init| :: init[k] == inputs[k];
      ScoreWithinLevel(s, cfg, levels, init);
      var prev := Frames(s, cfg, levels, init);
      var inp := inputs[|inputs| - 1];
      MeasuredHere(prev, cfg, inp);
      var h := HandleEvents(prev, cfg, levels, inp);
      UpdateScore(h, cfg);
    }
  }

  /** Events do nothing but toggle the preview once the pool is used up
      and the level is not complete. */
  lemma {:induction false} SpentPoolIgnoresEvents(st: Batch, events: seq<Event>, mouse: Vec, cfg: Config, levels: seq<Layout>)
    requires st.s.index >= |st.s.birds| && !st.s.levelComplete
    ensures var r := ApplyEvents(st, events, mouse, cfg, levels);
      r == st.(s := st.s.(showTrajectory := r.s.showTrajectory))
    decreases |events|
  {
    if |events| > 0 {
      SpentPoolIgnoresEvents(ApplyEvent(st, events[0], mouse, cfg, levels), events[1..], mouse, cfg, levels);
    }
  }

  /** A game that ended by running out of birds is frozen: a frame changes
      nothing but whether the preview is shown. */
  lemma ExhaustedGameIsFrozen(s: Session, cfg: Config, levels: seq<Layout>, inp: Input)
    requires cfg.Valid() && Inv(s, cfg) && MeasuredFromSlingshot(inp)
    requires s.gameOver && s.level <= LastLevel
    ensures var r := Frame(s, cfg, levels, inp);
      r == s.(showTrajectory := r.showTrajectory)
  {
    MeasuredHere(s, cfg, inp);
    SpentPoolIgnoresEvents(Batch(s, true), inp.events, inp.mouse, cfg, levels);
  }

}

=== FILE: game_preview.dfy ===
/**
 * The aiming preview: while the current bird is being dragged, the points
 * it would pass through if released with the pull from its current
 * position, computed with the same flight rule as a flying bird.
 */
module Trajectory {

  import opened Kinematics
  import opened Constants
  import BirdEntity
  import opened Game
  import Controls

  /** The preview never shows more points than this. */
  const PreviewSteps: nat := 50

  /** The visible field: the preview stops at its left, right and bottom edges. */
  predicate InField(p: Vec, cfg: Config) {
    0.0 <= p.x <= cfg.width && p.y <= cfg.height
  }

  /** The points of up to `PreviewSteps` frames of flight from `from`,
      stopping after the first point outside the field: point `i` is where
      the flight is after `i + 1` frames, every point but the last is inside
      the field, and a short list ends with a point outside it. */
  method ProjectPoints(from: Motion, cfg: Config) returns (pts: seq<Vec>)
    ensures 1 <= |pts| <= PreviewSteps
    ensures forall i | 0 <= i < |pts| :: pts[i] == Orbit(from, cfg.gravity, i + 1).pos
    ensures forall i | 0 <= i < |pts| - 1 :: InField(pts[i], cfg)
    ensures |pts| < PreviewSteps ==> !InField(pts[|pts| - 1], cfg)
  {
    var vx, vy := from.vel.x, from.vel.y;
    var px, py := from.pos.x, from.pos.y;
    pts := [];
    while |pts| < PreviewSteps
      invariant |pts| <= PreviewSteps
      invariant Motion(Vec(px, py), Vec(vx, vy)) == Orbit(from, cfg.gravity, |pts|)
      invariant forall i | 0 <= i < |pts| :: pts[i] == Orbit(from, cfg.gravity, i + 1).pos
      invariant forall i | 0 <= i < |pts| :: InField(pts[i], cfg)
    {
      vy := vy + cfg.gravity;
      px := px + vx;
      py := py + vy;
      pts := pts + [Vec(px, py)];
      if px < 0.0 || px > cfg.width || py > cfg.height {
        break;
      }
    }
  }

  /** The preview for a session: nothing unless the current bird is being
      dragged and not launched; otherwise the flight from the bird's
      position with the velocity a release from there would give. */
  method Preview(s: Session, cfg: Config) returns (pts: seq<Vec>)
    ensures pts != [] <==>
      s.index < |s.birds| && s.birds[s.index].dragging && !s.birds[s.index].launched
    ensures pts != [] ==>
      var b := s.birds[s.index];
      var from := Motion(b.pos, b.start.Minus(b.pos).Scale(cfg.launchPower));
      && 1 <= |pts| <= PreviewSteps
      && (forall i | 0 <= i < |pts| :: pts[i] == Orbit(from, cfg.gravity, i + 1).pos)
      && (forall i | 0 <= i < |pts| - 1 :: InField(pts[i], cfg))
      && (|pts| < PreviewSteps ==> !InField(pts[|pts| - 1], cfg))
  {
    pts := [];
    if s.index < |s.birds| {
      var b := s.birds[s.index];
      if b.dragging && !b.launched {
        var power := b.start.Minus(b.pos);
        pts := ProjectPoints(Motion(b.pos, power.Scale(cfg.launchPower)), cfg);
      }
    }
  }

  /** The preview is faithful: a launched, active bird with the previewed
      position and velocity passes through exactly the previewed points,
      one per frame, because every point before the last is inside the
      field and so inside the bird's widened bounds. */
  lemma PreviewIsFlight(b: Bird, cfg: Config, pts: seq<Vec>)
    requires b.active && b.launched
    requires forall i | 0 <= i < |pts| :: pts[i] == Orbit(Motion(b.pos, b.vel), cfg.gravity, i + 1).pos
    requires forall i | 0 <= i < |pts| - 1 :: InField(pts[i], cfg)
    ensures forall i | 0 <= i < |pts| ::
      BirdEntity.UpdateN(b, cfg.gravity, cfg.width, cfg.height, i + 1).pos == pts[i]
  {
    forall i | 0 <= i < |pts|
      ensures BirdEntity.UpdateN(b, cfg.gravity, cfg.width, cfg.height, i + 1).pos == pts[i]
    {
      forall k | 1 <= k < i + 1
        ensures BirdEntity.InBounds(Orbit(Motion(b.pos, b.vel), cfg.gravity, k).pos, cfg.width, cfg.height)
      {
        assert InField(pts[k - 1], cfg);
      }
      BirdEntity.FlightFollowsOrbit(b, cfg.gravity, cfg.width, cfg.height, i + 1);
    }
  }

  /** The preview and the shot can disagree.  After the drag clamp the
      preview's pull is the clamped one, but a release fires the raw pull
      from the start point to the mouse: the two agree when the pull is
      within the limit, and past it the preview shows a strictly shorter
      pull than the one that is fired. */
  lemma PreviewPullVsShot(b: Bird, mouse: Vec, len: real, maxPull: real)
    requires maxPull > 0.0
    requires len >= 0.0 && len * len == b.start.Minus(mouse).SqLen()
    requires b.pos == b.start.Minus(Controls.ClampPull(b.start.Minus(mouse), len, maxPull))
    ensures len <= maxPull ==> b.start.Minus(b.pos) == b.start.Minus(mouse)
    ensures len > maxPull ==> b.start.Minus(b.pos).SqLen() < b.start.Minus(mouse).SqLen()
  {
  }

}

=== FILE: game_state.dfy ===
/**
 * The game session: a pool of birds with a turn index, the level's sheep
 * and watermelons, the score, the level number and the two end flags,
 * together with level setup, the turn sequencer and the per-frame update.
 */
module Game {

  import opened Options
  import opened Kinematics
  import opened Constants
  import BirdEntity
  import opened SheepEntity
  import opened WatermelonEntity

  /** Birds handed out per level. */
  const PoolSize: nat := 500

  /** Where every bird of the pool starts: the slingshot. */
  const Slingshot: Vec := Vec(200.0, 550.0)

  /** The last level that has a layout. */
  const LastLevel: int := 4

  /** Points for each sheep hit. */
  const HitScore: int := 100

  /** Points per level number for clearing a level. */
  const LevelBonus: int := 500

  /** The factor a watermelon applies to both velocity components. */
  const Bounce: real := -0.3

  type Bird = BirdEntity.Bird

  /** Where a level puts its sheep and its watermelons (top-left corners). */
  datatype Layout = Layout(sheep: seq<Vec>, melons: seq<Vec>)

  datatype Session = Session(
    birds: seq<Bird>,
    index: nat,            // the bird whose turn it is
    sheep: seq<Sheep>,
    melons: seq<Melon>,
    score: int,
    level: int,
    levelComplete: bool,
    gameOver: bool,
    showTrajectory: bool)

  /** Level `k` uses entry `k - 1` of the table; a level without an entry
      has no sheep and no watermelons. */
  function LayoutFor(levels: seq<Layout>, level: int): Layout {
    if 1 <= level <= |levels| then levels[level - 1] else Layout([], [])
  }

  function FreshBird(cfg: Config): Bird {
    BirdEntity.NewBird(Slingshot.x, Slingshot.y, cfg.birdRadius)
  }

  /** How many sheep are still alive. */
  function AliveCount(flock: seq<Sheep>): nat {
    if |flock| == 0 then 0
    else (if flock[0].alive then 1 else 0) + AliveCount(flock[1..])
  }

  /** The count is zero exactly when no sheep is alive, and it is the
      length exactly when every sheep is. */
  lemma {:induction false} AliveCountBounds(flock: seq<Sheep>)
    ensures AliveCount(flock) <= |flock|
    ensures AliveCount(flock) == 0 <==> forall i | 0 <= i < |flock| :: !flock[i].alive
    ensures AliveCount(flock) == |flock| <==> forall i | 0 <= i < |flock| :: flock[i].alive
  {
    if |flock| > 0 {
      AliveCountBounds(flock[1..]);
      assert forall i | 1 <= i < |flock| :: flock[i] == flock[1..][i - 1];
    }
  }

  /** Fresh level state: a full pool of resting birds at the slingshot, the
      turn back at the first bird, and the level's sheep (all alive) and
      watermelons.  Score, level and the flags are left alone. */
  function SetupLevel(s: Session, cfg: Config, levels: seq<Layout>): (r: Session)
    ensures |r.birds| == PoolSize && r.index == 0
    ensures forall i | 0 <= i < |r.birds| ::
      r.birds[i].pos == Slingshot && r.birds[i].start == Slingshot && r.birds[i].vel == Zero
      && !r.birds[i].launched && !r.birds[i].dragging && r.birds[i].active
      && r.birds[i].radius == cfg.birdRadius
    ensures var l := LayoutFor(levels, s.level);
      && |r.sheep| == |l.sheep|
      && (forall i | 0 <= i < |r.sheep| ::
            r.sheep[i].pos == l.sheep[i] && r.sheep[i].radius == cfg.sheepRadius)
      && |r.melons| == |l.melons|
      && (forall i | 0 <= i < |r.melons| ::
            r.melons[i].pos == l.melons[i] && r.melons[i].width == Side && r.melons[i].height == Side)
    ensures AliveCount(r.sheep) == |r.sheep|
    ensures r.score == s.score && r.level == s.level && r.showTrajectory == s.showTrajectory
    ensures r.levelComplete == s.levelComplete && r.gameOver == s.gameOver
  {
    var l := LayoutFor(levels, s.level);
    var flock := seq(|l.sheep|, i requires 0 <= i < |l.sheep| => NewSheep(l.sheep[i].x, l.sheep[i].y, cfg.sheepRadius));
    AliveCountBounds(flock);
    s.(birds := seq(PoolSize, _ => FreshBird(cfg)),
       index := 0,
       sheep := flock,
       melons := seq(|l.melons|, i requires 0 <= i < |l.melons| => NewMelon(l.melons[i].x, l.melons[i].y)))
  }

  /** The bird whose turn it is, if the pool is not used up. */
  function CurrentBird(s: Session): (r: Option<Bird>)
    ensures r.Some? <==> s.index < |s.birds|
    ensures r.Some? ==> r.value == s.birds[s.index]
  {
    if s.index < |s.birds| then Some(s.birds[s.index]) else None
  }

  /** Passes the turn on: the index goes up by exactly one, and the answer
      is false iff the new index is past the pool. */
  function NextBird(s: Session): (r: (Session, bool))
    ensures r.0.index == s.index + 1
    ensures r.1 <==> s.index + 1 < |s.birds|
    ensures r.0 == s.(index := r.0.index)
  {
    var t := s.(index := s.index + 1);
    (t, t.index < |t.birds|)
  }

  /** Every bird takes one frame. */
  function UpdateAll(birds: seq<Bird>, cfg: Config): (r: seq<Bird>)
    ensures |r| == |birds|
    ensures forall i | 0 <= i < |birds| :: r[i] == BirdEntity.Update(birds[i], cfg.gravity, cfg.width, cfg.height)
  {
    seq(|birds|, i requires 0 <= i < |birds| => BirdEntity.Update(birds[i], cfg.gravity, cfg.width, cfg.height))
  }

  /** The sheep pass of one frame: each living sheep the bird touches dies,
      dead sheep are skipped, and the points gained are `HitScore` for
      every sheep that died. */
  function SheepPass(b: Bird, flock: seq<Sheep>): (r: (seq<Sheep>, int))
    ensures |r.0| == |flock|
    ensures forall i | 0 <= i < |flock| ::
      r.0[i] == (if flock[i].alive && BirdEntity.HitsSheep(b, flock[i]) then Hit(flock[i]) else flock[i])
    ensures AliveCount(r.0) <= AliveCount(flock)
    ensures r.1 == HitScore * (AliveCount(flock) - AliveCount(r.0))
  {
    if |flock| == 0 then ([], 0)
    else
      var rest := SheepPass(b, flock[1..]);
      var hit := flock[0].alive && BirdEntity.HitsSheep(b, flock[0]);
      var first := if hit then Hit(flock[0]) else flock[0];
      var out := [first] + rest.0;
      assert out[1..] == rest.0;
      (out, rest.1 + (if hit then HitScore else 0))
  }

  /** How many of the watermelons the bird overlaps. */
  function OverlapCount(melons: seq<Melon>, b: Bird): nat {
    if |melons| == 0 then 0
    else (if Overlaps(melons[0], b) then 1 else 0) + OverlapCount(melons[1..], b)
  }

  function Pow(x: real, k: nat): real {
    if k == 0 then 1.0 else x * Pow(x, k - 1)
  }

  /** The overlap count depends on the bird's position and radius only. */
  lemma {:induction false} OverlapCountGeometryOnly(melons: seq<Melon>, b: Bird, c: Bird)
    requires b.pos == c.pos && b.radius == c.radius
    ensures OverlapCount(melons, b) == OverlapCount(melons, c)
  {
    if |melons| > 0 {
      OverlapCountGeometryOnly(melons[1..], b, c);
      OverlapsReadsGeometryOnly(melons[0], b, c);
    }
  }

  /** The watermelon pass of one frame: every watermelon the bird overlaps
      multiplies both velocity components by `Bounce`, so `k` overlaps
      scale the velocity by `Bounce` to the power `k`; nothing else about
      the bird changes.  The watermelons are only cracked, which leaves them
      as they are. */
  function MelonPass(b: Bird, melons: seq<Melon>): (r: Bird)
    ensures r == b.(vel := b.vel.Scale(Pow(Bounce, OverlapCount(melons, b))))
    decreases |melons|
  {
    if |melons| == 0 then b
    else
      var next := if Overlaps(melons[0], b) then b.(vel := b.vel.Scale(Bounce)) else b;
      OverlapCountGeometryOnly(melons[1..], next, b);
      var r := MelonPass(next, melons[1..]);
      ScaleTwice(b.vel, Bounce, Pow(Bounce, OverlapCount(melons[1..], b)));
      r
  }

  /** Scaling by `a` and then by `k` is scaling by `a * k`. */
  lemma ScaleTwice(v: Vec, a: real, k: real)
    ensures v.Scale(a).Scale(k) == v.Scale(a * k)
  {
    assert k * (a * v.x) == (a * k) * v.x;
    assert k * (a * v.y) == (a * k) * v.y;
  }

  /** Pays the level bonus if no sheep is alive and it has not been paid. */
  function AwardIfCleared(s: Session): (r: Session)
    ensures AliveCount(s.sheep) == 0 ==> r.levelComplete
    ensures !s.levelComplete && r.levelComplete ==> AliveCount(s.sheep) == 0
    ensures r.score == s.score + (if !s.levelComplete && r.levelComplete then LevelBonus * s.level else 0)
    ensures r == s.(levelComplete := r.levelComplete, score := r.score)
  {
    if AliveCount(s.sheep) == 0 && !s.levelComplete then
      s.(levelComplete := true, score := s.score + LevelBonus * s.level)
    else s
  }

  /** The end of a turn: pass the turn on; if the pool is used up, either
      pay the level bonus (no sheep alive) or end the game (some alive),
      unless the level is already complete. */
  function AdvanceTurn(s: Session): (r: Session)
    ensures r.index == s.index + 1
    ensures r.gameOver <==> s.gameOver || (s.index + 1 >= |s.birds| && AliveCount(s.sheep) > 0 && !s.levelComplete)
    ensures r.levelComplete <==> s.levelComplete || (s.index + 1 >= |s.birds| && AliveCount(s.sheep) == 0)
    ensures r.score == s.score + (if !s.levelComplete && r.levelComplete then LevelBonus * s.level else 0)
    ensures r == s.(index := r.index, gameOver := r.gameOver, levelComplete := r.levelComplete, score := r.score)
  {
    var (t, more) := NextBird(s);
    if more then t
    else if AliveCount(t.sheep) == 0 && !t.levelComplete then
      t.(levelComplete := true, score := t.score + LevelBonus * t.level)
    else if AliveCount(t.sheep) > 0 && !t.levelComplete then
      t.(gameOver := true)
    else t
  }

  /** Collision resolution for the bird at `i`: first the sheep, tested
      against the bird as it was before any bounce, then the watermelons,
      which change only that bird's velocity.  The score rises by
      `HitScore` per sheep that died; nothing else changes. */
  function Collide(s: Session, i: nat): (r: Session)
    requires i < |s.birds|
    ensures |r.sheep| == |s.sheep|
    ensures forall j | 0 <= j < |s.sheep| ::
      r.sheep[j] == (if s.sheep[j].alive && BirdEntity.HitsSheep(s.birds[i], s.sheep[j]) then Hit(s.sheep[j]) else s.sheep[j])
    ensures r.score == s.score + HitScore * (AliveCount(s.sheep) - AliveCount(r.sheep))
    ensures |r.birds| == |s.birds|
    ensures var b := s.birds[i];
      r.birds[i] == b.(vel := b.vel.Scale(Pow(Bounce, OverlapCount(s.melons, b))))
    ensures forall j | 0 <= j < |s.birds| && j != i :: r.birds[j] == s.birds[j]
    ensures r == s.(sheep := r.sheep, score := r.score, birds := r.birds)
  {
    var b := s.birds[i];
    var (flock, points) := SheepPass(b, s.sheep);
    s.(sheep := flock, score := s.score + points, birds := s.birds[i := MelonPass(b, s.melons)])
  }

  /** The current bird after its own frame of flight. */
  function Stepped(s: Session, cfg: Config): Bird
    requires s.index < |s.birds|
  {
    BirdEntity.Update(s.birds[s.index], cfg.gravity, cfg.width, cfg.height)
  }

  /** The current bird's turn ends this frame: it was launched and its
      frame of flight took it out of the field. */
  predicate TurnEnds(s: Session, cfg: Config) {
    s.index < |s.birds| && Stepped(s, cfg).launched && !Stepped(s, cfg).active
  }

  /** One frame of the game: every bird takes its frame; if the current
      bird's flight has just ended the turn passes on; if the current bird
      is still active it is tested against the sheep and the watermelons;
      finally the level bonus is paid if no sheep is left. */
  function Update(s: Session, cfg: Config): (r: Session)
    ensures s.index >= |s.birds| ==> r == s
    ensures |r.birds| == |s.birds| && |r.sheep| == |s.sheep| && r.melons == s.melons
    ensures r.level == s.level && r.showTrajectory == s.showTrajectory
  {
    if s.index >= |s.birds| then s
    else
      var i := s.index;
      var birds := UpdateAll(s.birds, cfg);
      var cur := birds[i];
      var s1 := s.(birds := birds);
      var s2 := if cur.launched && !cur.active then AdvanceTurn(s1) else s1;
      var s3 := if cur.active then Collide(s2, i) else s2;
      AwardIfCleared(s3)
  }

}

=== FILE: kinematics.dfy ===
/**
 * Planar vectors and the per-frame flight rule shared by a flying bird and
 * the trajectory preview: semi-implicit Euler with a fixed step, i.e.
 * gravity is added to the vertical velocity first and the position then
 * moves by the new velocity.
 */
module Kinematics {

  datatype Vec = Vec(x: real, y: real) {

    function Plus(o: Vec): Vec {
      Vec(x + o.x, y + o.y)
    }

    function Minus(o: Vec): Vec {
      Vec(x - o.x, y - o.y)
    }

    function Scale(k: real): Vec {
      Vec(k * x, k * y)
    }

    /** Squared Euclidean length. */
    function SqLen(): real {
      x * x + y * y
    }
  }

  const Zero: Vec := Vec(0.0, 0.0)

  function SqDist(a: Vec, b: Vec): real {
    a.Minus(b).SqLen()
  }

  datatype Motion = Motion(pos: Vec, vel: Vec)

  /** One frame of flight under gravity `g`. */
  function Step(m: Motion, g: real): Motion {
    var v := Vec(m.vel.x, m.vel.y + g);
    Motion(m.pos.Plus(v), v)
  }

  /** The motion after `n` frames of flight. */
  function Orbit(m: Motion, g: real, n: nat): Motion
    decreases n
  {
    if n == 0 then m else Step(Orbit(m, g, n - 1), g)
  }

  /** Closed form of `n` frames: the horizontal velocity never changes, the
      vertical one gains `g` per frame, and the height gains the triangular
      number n(n+1)/2 times `g` on top of the uniform motion. */
  lemma {:induction false} OrbitClosedForm(m: Motion, g: real, n: nat)
    ensures Orbit(m, g, n).vel == Vec(m.vel.x, m.vel.y + (n as real) * g)
    ensures Orbit(m, g, n).pos.x == m.pos.x + (n as real) * m.vel.x
    ensures Orbit(m, g, n).pos.y
         == m.pos.y + (n as real) * m.vel.y + (n as real) * (n as real + 1.0) / 2.0 * g
  {
    if n > 0 {
      OrbitClosedForm(m, g, n - 1);
      var k := (n - 1) as real;
      assert (n as real) == k + 1.0;
      assert k * (k + 1.0) / 2.0 * g + (k + 1.0) * g == (k + 1.0) * (k + 2.0) / 2.0 * g;
    }
  }

  /** Dropped from rest (zero velocity) with positive gravity, the height
      coordinate strictly grows with every frame, i.e. the body falls. */
  lemma FallFromRestDescends(p: Vec, g: real, n: nat)
    requires g > 0.0
    ensures Orbit(Motion(p, Zero), g, n + 1).pos.y > Orbit(Motion(p, Zero), g, n).pos.y
  {
    OrbitClosedForm(Motion(p, Zero), g, n);
    assert (n as real) * g >= 0.0;
  }

}

=== FILE: options.dfy ===
/** The "object or None" results of the game's lookups. */
module Options {

  datatype Option<+T> = None | Some(value: T)

}

=== FILE: sheep.dfy ===
/**
 * A sheep is a circular target with a one-way `alive` flag.  Its colours,
 * bow, spot and hit burst are cosmetic and are not modelled.
 */
module SheepEntity {

  import opened Kinematics

  datatype Sheep = Sheep(pos: Vec, radius: real, alive: bool)

  /** A new sheep is alive, at the given point, with the configured radius. */
  function NewSheep(x: real, y: real, radius: real): (s: Sheep)
    ensures s.alive
    ensures s.pos == Vec(x, y) && s.radius == radius
  {
    Sheep(Vec(x, y), radius, true)
  }

  /** Hitting a sheep kills it and leaves its geometry alone. */
  function Hit(s: Sheep): (r: Sheep)
    ensures !r.alive
    ensures r.pos == s.pos && r.radius == s.radius
  {
    s.(alive := false)
  }

  /** Nothing brings a sheep back: hitting a dead sheep again changes nothing. */
  lemma HitTwice(s: Sheep)
    ensures Hit(Hit(s)) == Hit(s)
    ensures !Hit(Hit(s)).alive
  {
  }

}

=== FILE: watermelon.dfy ===
/**
 * A watermelon is a fixed 60 x 60 box whose top-left corner is its
 * position.  Cracking it only spawns particles, and its "cut" look is
 * random decoration, so neither is part of its modelled state.
 */
module WatermelonEntity {

  import opened Kinematics
  import opened BirdEntity

  const Side: real := 60.0

  datatype Melon = Melon(pos: Vec, width: real, height: real)

  /** A new watermelon is the 60 x 60 box with its top-left corner at (x, y). */
  function NewMelon(x: real, y: real): (m: Melon)
    ensures m.pos == Vec(x, y)
    ensures m.width == Side && m.height == Side
  {
    Melon(Vec(x, y), Side, Side)
  }

  /** Cracking changes no geometry. */
  function Crack(m: Melon): (r: Melon)
    ensures r.pos == m.pos && r.width == m.width && r.height == m.height
  {
    m
  }

  /** The watermelon/bird test: the bird's bounding square and the box
      overlap, every comparison strict.  It looks at the bird's position and
      radius only, never at whether the bird is launched or active. */
  predicate Overlaps(m: Melon, b: Bird) {
    && b.pos.x + b.radius > m.pos.x
    && b.pos.x - b.radius < m.pos.x + m.width
    && b.pos.y + b.radius > m.pos.y
    && b.pos.y - b.radius < m.pos.y + m.height
  }

  /** `p` lies strictly inside the box with corners `lo` and `hi`. */
  predicate StrictlyInside(p: Vec, lo: Vec, hi: Vec) {
    lo.x < p.x < hi.x && lo.y < p.y < hi.y
  }

  function Max(a: real, b: real): real { if a < b then b else a }

  function Min(a: real, b: real): real { if a < b then a else b }

  /** Reference reading of the test: for a bird of positive radius and a
      box of positive size, the test holds iff some point lies strictly
      inside both the bird's bounding square and the box. */
  lemma OverlapsIffCommonPoint(m: Melon, b: Bird)
    requires b.radius > 0.0 && m.width > 0.0 && m.height > 0.0
    ensures Overlaps(m, b) <==>
      exists p :: StrictlyInside(p, b.pos.Minus(Vec(b.radius, b.radius)), b.pos.Plus(Vec(b.radius, b.radius)))
               && StrictlyInside(p, m.pos, m.pos.Plus(Vec(m.width, m.height)))
  {
    var blo := b.pos.Minus(Vec(b.radius, b.radius));
    var bhi := b.pos.Plus(Vec(b.radius, b.radius));
    var mhi := m.pos.Plus(Vec(m.width, m.height));
    if Overlaps(m, b) {
      var p := Vec((Max(blo.x, m.pos.x) + Min(bhi.x, mhi.x)) / 2.0,
                   (Max(blo.y, m.pos.y) + Min(bhi.y, mhi.y)) / 2.0);
      assert StrictlyInside(p, blo, bhi) && StrictlyInside(p, m.pos, mhi);
    }
  }

  /** Touching an edge exactly is not an overlap. */
  lemma EdgeContactIsNoOverlap(m: Melon, b: Bird)
    requires b.pos.x + b.radius == m.pos.x
          || b.pos.x - b.radius == m.pos.x + m.width
          || b.pos.y + b.radius == m.pos.y
          || b.pos.y - b.radius == m.pos.y + m.height
    ensures !Overlaps(m, b)
  {
  }

  /** Two birds with the same position and radius get the same answer,
      whatever their flags and velocities, and cracking the watermelon
      does not change it. */
  lemma OverlapsReadsGeometryOnly(m: Melon, b: Bird, c: Bird)
    requires b.pos == c.pos && b.radius == c.radius
    ensures Overlaps(m, b) == Overlaps(m, c)
    ensures Overlaps(Crack(m), b) == Overlaps(m, b)
  {
  }

}
